=== FILE: README.md ===
# Dial-code service: batch-image decisions

A Dafny model of the decision logic inside the dial-code controller
(`src/service/dialCodeService.js`). Dial codes are short identifiers minted
by an external registry; the controller can have a scannable image rendered
for each code and submit the images as one batch, tracked by a process id.
The model covers:

- the batch request builder (`prepareQRCodeRequestData`): the all-or-nothing
  fold of the per-code image tasks, the `dialcodes` entries, the owning
  object, the storage container and path, and the archive file name built
  from the content's metadata;
- the rendering configuration (`getBatchImageInstance`): fixed defaults
  overridden by the caller's `qrCodeSpec`;
- the request checks: the generate request's count, the list request's
  publisher, and `checkContentLinkRequest`;
- the outcome of the generate, list and reserve workflows: 400, the
  upstream's status, 207 partial success, or 200.

Every collaborator is represented by its answer, passed in as a value:
the registry's and the content service's replies (`Reply<T>`: a transport
error or a delivered response with `responseCode`, `statusCode` and
`result`), the image service's answer per code (a function from code to
file name or error), the batch service's answer to a submitted manifest (a
function from manifest to process id or error), the registry URL from the
environment, the configured maximum generate count and the clock reading.

Modules, leaves first: `Wrappers` (Option, Result), `JsValues` (JavaScript
truthiness, `length`, `_.isSafeInteger`), `Lodash` (`_.compact`, `_.join`,
decimal rendering), `Responses` (replies and the status clamp),
`RenderConfig`, `TaskScheduler`, `ManifestBuilder`, `Validation`,
`Workflow`.

Behaviour a caller may not expect, which the model keeps as the code has it:

- A generate request with a negative count passes validation: the code
  checks only that the count is truthy and a safe integer.
- One failed image task discards every result of the batch; no partial
  mapping survives. The answer is then 207 with the codes and no process id.
- A failed content update after a reservation is detected only on a
  transport error (see Findings).

## Model

| member | source | states |
|---|---|---|
| RenderConfig.Merge | src/service/dialCodeService.js:37 | the merged configuration has every key of either side, the caller's value wins, and defaults fill in the rest |
| RenderConfig.BatchConfig | src/service/dialCodeService.js:25-40 | the keys are those of the defaults and of `qrCodeSpec`; every setting the caller names takes the caller's value and every other default keeps its value; no default setting is ever lost, so the configuration has at least the nine default keys; a `qrCodeSpec` naming only default keys adds none; an empty `qrCodeSpec` yields exactly the nine defaults; the image format defaults to png |
| TaskScheduler.RunTasks | src/service/dialCodeService.js:45-57 | the batch fails iff some code's image task fails, with that task's error; otherwise every code maps to its own file name, nothing else is present, there are at most as many entries as input codes, and exactly as many iff no code repeats |
| Lodash.Compact | src/service/dialCodeService.js:99 | keeps exactly the truthy elements; nothing is dropped iff all are truthy; empty iff all are falsy |
| Lodash.CompactAppend | src/service/dialCodeService.js:95-99 | compacting a concatenation compacts each part on its own |
| Lodash.Decimal | src/service/dialCodeService.js:98 | the timestamp renders as a non-empty string of decimal digits without a leading zero |
| Lodash.DecimalRoundTrip | src/service/dialCodeService.js:98-101 | the rendered timestamp reads back as the same number |
| Lodash.Join | src/service/dialCodeService.js:101 | the joined string starts with the first element's rendering, followed by the separator when there is a second element |
| Lodash.JoinAppend | src/service/dialCodeService.js:101 | joining two non-empty arrays back to back is joining each with one separator between them |
| Lodash.JoinSnoc | src/service/dialCodeService.js:101 | appending an element appends the separator and that element's rendering |
| ManifestBuilder.StoragePath | src/service/dialCodeService.js:73 | the path starts with `channel/` and ends with `/`; it is longer than `channel/` iff a publisher is given, and then the publisher sits between the two slashes |
| ManifestBuilder.StoragePathSeparatesPublishers | src/service/dialCodeService.js:73 | within one channel, two paths coincide iff both have no publisher or both have the same one |
| ManifestBuilder.ArchiveFileName | src/service/dialCodeService.js:95-101 | the archive name starts with a non-empty content id and, for a non-zero clock reading, ends with `_` and the reading's digits, whatever metadata is present |
| ManifestBuilder.ArchiveFileNameLayout | src/service/dialCodeService.js:92-101 | for a non-empty content id and non-zero clock reading the name is the content id, then the truthy medium, grade levels and subject in that order each after a `_`, then `_` and the reading |
| ManifestBuilder.ArchiveFileNameWithoutMetadata | src/service/dialCodeService.js:92-101 | with medium, subject and grade levels all missing or empty, the name is the content id, `_`, and the timestamp |
| ManifestBuilder.Entries | src/service/dialCodeService.js:59-67 | one entry per result key with `text` the key, `data` the registry URL followed by the key and `id` its file name; no two entries share a text |
| ManifestBuilder.Prepare | src/service/dialCodeService.js:42-111 | fails, with no manifest, iff some image task fails; otherwise its entries cover every input code and nothing else, number at most the input codes, object id is the content id when given and the channel otherwise, container is `dial`, path as above, and an archive file name exists iff a content id was given and its lookup answered SUCCESS, and is then the name built from the looked-up metadata and the clock reading, starting with the content id |
| ManifestBuilder.LookupOnlyNamesArchive | src/service/dialCodeService.js:76-107 | the content lookup cannot fail the builder: whatever it answers, success is the same and the manifest differs at most in the archive file name, which a failed lookup or a missing content id leaves unset |
| Responses.UpstreamStatus | src/service/dialCodeService.js:160 | the error status is always in [100, 600): the upstream's own status when it is in that range, else 500 |
| Validation.ValidateGenerate | src/service/dialCodeService.js:122-138 | missing `request.dialcodes` is rejected first; otherwise the request passes iff the count is a non-zero whole number of magnitude at most 2^53 - 1, negative counts included |
| JsValues.Utf16Length | src/service/dialCodeService.js:434-436 | a string's `length` counts UTF-16 code units: between one and two per character, and equal to the character count iff no character lies outside the Basic Multilingual Plane |
| Validation.ValidateList | src/service/dialCodeService.js:227-234 | a list request passes iff it names a non-empty publisher |
| Validation.CheckContentLinkRequest | src/service/dialCodeService.js:430-441 | accepted requests carry a truthy identifier and dial code; for strings or arrays, accepted iff both are non-empty and at least one side has length one, a string's length counted in UTF-16 code units |
| Validation.UnsizedIdentifierAccepted | src/service/dialCodeService.js:434-436 | a truthy identifier without a `length` escapes the length checks and is accepted with any non-empty codes |
| Workflow.RunImageStage | src/service/dialCodeService.js:169-193 | images are skipped iff no non-empty `qrCodeSpec` or no codes; a render failure degrades the stage iff some code fails; a process id comes only from submitting a manifest rendered with the merged configuration, with at most one entry per code and the right object id; once the manifest is built, the stage attaches a process id iff the submission succeeds, and that id is the one the submission returned, while a refused submission degrades the stage with its message |
| Workflow.Generate | src/service/dialCodeService.js:118-210 | 400 iff validation fails; the upstream status iff the registry answered neither SUCCESS nor PARTIAL_SUCCESS; every non-error answer carries exactly the minted codes; 200 only within the maximum count; the status is a valid HTTP status |
| Workflow.CapCount | src/service/dialCodeService.js:203-207 | the answer is 207 iff more codes were requested than the configured maximum, 200 otherwise, and carries the result unchanged |
| Workflow.GenerateRejectsBeforeRegistry | src/service/dialCodeService.js:122-138 | a rejected request is answered 400 whatever the registry or image services would have answered |
| Workflow.GenerateOutcomeCases | src/service/dialCodeService.js:167-207 | 200 iff within the maximum and the image step did not fail; otherwise 207; a process id is attached iff the batch was submitted |
| Workflow.GenerateRenderFailureKeepsCodes | src/service/dialCodeService.js:173-178 | one failed image task answers 207 with all minted codes and no process id |
| Workflow.GenerateWithoutImages | src/service/dialCodeService.js:168-170 | without a non-empty `qrCodeSpec` the image services do not affect the answer and no process id is attached |
| Workflow.List | src/service/dialCodeService.js:218-302 | 400 iff no publisher; upstream status on a registry failure; 207 iff the requested image step failed, with no process id; non-error answers carry the listed codes; a 200 answer carries a process id iff the batch was submitted, and then the submitted batch's |
| Workflow.AfterImages | src/service/dialCodeService.js:839-870 | the image step changes the reservation at most in its process id, and only when images were requested; it fails iff the image stage degrades; a skipped stage leaves the reservation as it was and an attached one sets the process id to the submitted batch's |
| Workflow.ContentUpdate | src/service/dialCodeService.js:881-897 | fails iff a transport error or the tested code is not SUCCESS, with the update's status; otherwise only the version key may change, to the update's when it returned one |
| Workflow.ReserveFlow | src/service/dialCodeService.js:822-906 | a refused reservation answers with its status and result; after an accepted one the answer is 207 iff the image step failed, with the reserved result; without both a process id and a version key it is 200 with the linked reservation; with both, it fails iff the update is not delivered or the tested code is not SUCCESS, with the update's status and no body; a 200 answer is the linked reservation, at most with a new version key; after a made update it adopts the version key the update returned, and without one it is the linked reservation unchanged |
| Workflow.Reserve | src/service/dialCodeService.js:818-907 | a refused reservation answers with its status and result; after an accepted one, only a transport error of the update fails; partial and complete answers keep the reserved result and change only the process id and version key, the latter only to the update's own; 207 iff the image step failed; a made update that hits a transport error answers with the update's status and no body; a 200 answer carries the process id of the linked reservation; after a made update it adopts the version key the update returned, or keeps the linked reservation unchanged when none came back |
| Workflow.ReserveRenderFailureKeepsCodes | src/service/dialCodeService.js:839-851 | a reserve request whose `request.dialcodes.qrCodeSpec` is non-empty, with one reserved code failing to render, is answered 207 with the reservation's result unchanged |
| Workflow.ReserveUpdateNeedsProcessAndVersion | src/service/dialCodeService.js:872 | without both a process id and a version key the update is not made and its reply cannot change the 200 answer |
| Workflow.ReserveIgnoresRejectedUpdate | src/service/dialCodeService.js:882 | an update refused with SERVER_ERROR and status 500 still yields 200 with the old version key |
| Workflow.ReserveIntended | src/service/dialCodeService.js:881-890 | with the update's own code tested, a made update fails iff it was not delivered with SUCCESS, answering with the update's status; 207 iff the image step failed; a 200 answer carries the linked reservation's process id and, after a made update, the version key the update returned, if any |

## Left out

- The bounded concurrency of `async.parallelLimit` and its limit of 100: the tasks are folded in input order. Which error is reported when several tasks fail depends on completion order; the model reports the first failing code's error.
- The image service, the batch-image service (`createRequest`, `getStatus`), the content provider and the registry helper: their code is not part of this model; their answers are parameters.
- `DIALCODE_GENERATE_MAX_COUNT`: `Workflow.Generate` takes the configured maximum as a number (`maxCount: int`). The service compares with JavaScript `>`, so a missing or non-numeric setting makes the comparison false and never downgrades to 207; that case is not modelled.
- `Date.now()` and the registry URL environment variable: parameters (an unset variable renders as `undefined`, which the model leaves to the caller's string).
- `getProcessIdStatusAPI`: it forwards the batch service's status and parses a JSON error message; no decision of its own beyond the missing-id 400.
- The pass-through endpoints (update, get, content link forwarding, search, publish, publisher create/get/update): each is validate, call, then 200 or the clamped upstream status, the pattern `Responses.UpstreamStatus` already states. `releaseDialCode` (src/service/dialCodeService.js:909-935) does no validation: it calls the content service and answers 200 or the clamped status.
- Response bodies: `errCode`, `errMsg`, `responseCode` fields, `getErrorResponse`, logging and telemetry.
- `_.merge` deep-merges nested values and skips `undefined` ones; the model merges a flat map of defined settings.
- A `qrCodeSpec` that is not an object, a `medium` or `subject` that is an array, an object with a numeric `length` in a content-link request, and a missing channel header (which would make the path `undefined/`).
- A delivered reply without a `result`, on which the service would throw: replies always carry a result here.
- Validation.CheckContentLinkRequest: its contract fixes the answer only when both fields have a `length`; for a field without one, `Validation.UnsizedIdentifierAccepted` states the identifier side only.
- The list registry's records are reduced to their identifiers, the only field the image step reads.

## Findings

| source | as written | input that shows it | evidently intended | confidence | as-written member | corrected member |
|---|---|---|---|---|---|---|
| src/service/dialCodeService.js:882 | the update step tests `res.responseCode`, the reservation's code, which is always SUCCESS at that point | reservation accepted, batch submitted, version key present, update delivered with SERVER_ERROR and status 500: answered 200 with the stale version key | test `updateResponse.responseCode` and answer with the update's status | high; not executed | Workflow.ReserveIgnoresRejectedUpdate | Workflow.ReserveIntended |

=== FILE: js_values.dfy ===
/** The JavaScript values that request bodies carry, and the truthiness,
    `length` and integer tests the service's guards apply to them. */
module JsValues {
  import opened Wrappers

  /** A value decoded from a JSON request body. `Object` stands for any
      object that has no numeric `length` property. */
  datatype JsValue =
    | Undefined
    | Null
    | Boolean(b: bool)
    | Number(x: real)
    | NaN
    | Infinity(negative: bool)
    | Str(s: string)
    | Array(items: seq<JsValue>)
    | Object

  /** JavaScript truthiness: `if (v)` takes its branch exactly when this holds. */
  predicate Truthy(v: JsValue) {
    match v
    case Undefined => false
    case Null => false
    case Boolean(b) => b
    case Number(x) => x != 0.0
    case NaN => false
    case Infinity(_) => true
    case Str(s) => s != ""
    case Array(_) => true
    case Object => true
  }

  /** Truthiness of an optional string field: present and not empty. */
  predicate Present(o: Option<string>) {
    o.Some? && o.value != ""
  }

  /** The number of UTF-16 code units that encode `c`: two for a character
      outside the Basic Multilingual Plane, one otherwise. */
  function CodeUnits(c: char): nat {
    if c as int > 0xFFFF then 2 else 1
  }

  /** A JavaScript string's `length`: it counts UTF-16 code units, so a
      character outside the Basic Multilingual Plane counts twice. */
  function Utf16Length(s: string): (n: nat)
    ensures |s| <= n <= 2 * |s|
    ensures n == |s| <==> forall i | 0 <= i < |s| :: s[i] as int <= 0xFFFF
  {
    if s == [] then 0
    else
      var n := CodeUnits(s[0]) + Utf16Length(s[1..]);
      assert forall i | 1 <= i < |s| :: s[i] == s[1..][i - 1];
      n
  }

  /** `v.length`: a number for strings and arrays, `undefined` (None) otherwise. */
  function Length(v: JsValue): Option<nat> {
    match v
    case Str(s) => Some(Utf16Length(s))
    case Array(items) => Some(|items|)
    case _ => None
  }

  /** `Number.MAX_SAFE_INTEGER`, 2^53 - 1. */
  const MAX_SAFE_INTEGER: int := 0x1F_FFFF_FFFF_FFFF

  /** `_.isSafeInteger(v)`: a number with no fractional part and magnitude
      at most 2^53 - 1. */
  predicate IsSafeInteger(v: JsValue) {
    && v.Number?
    && v.x == v.x.Floor as real
    && -MAX_SAFE_INTEGER <= v.x.Floor <= MAX_SAFE_INTEGER
  }
}

=== FILE: lodash.dfy ===
/** The three lodash helpers the archive file name is built with:
    `_.compact` (drop falsy elements), `_.join` (join the rest with a
    separator) and the decimal rendering `_.join` applies to the millisecond
    timestamp. */
module Lodash {

  /** An element of the file-name array: a field that may be missing, a
      string, or the millisecond clock reading. */
  datatype Atom = Missing | Text(s: string) | Millis(n: nat)

  /** The elements `_.compact` removes. */
  predicate Falsy(a: Atom) {
    match a
    case Missing => true
    case Text(s) => s == ""
    case Millis(n) => n == 0
  }

  /** `_.compact(xs)`: the truthy elements of `xs`, in order. */
  function Compact(xs: seq<Atom>): (ys: seq<Atom>)
    ensures forall a :: a in ys <==> a in xs && !Falsy(a)
    ensures |ys| <= |xs|
    ensures |ys| == |xs| <==> forall i | 0 <= i < |xs| :: !Falsy(xs[i])
    ensures ys == [] <==> forall i | 0 <= i < |xs| :: Falsy(xs[i])
  {
    if xs == [] then []
    else if Falsy(xs[0]) then Compact(xs[1..])
    else [xs[0]] + Compact(xs[1..])
  }

  /** Compacting distributes over concatenation, so each component of a
      concatenated array is compacted on its own. */
  lemma {:induction false} CompactAppend(xs: seq<Atom>, ys: seq<Atom>)
    ensures Compact(xs + ys) == Compact(xs) + Compact(ys)
    decreases |xs|
  {
    if xs == [] {
      assert xs + ys == ys;
    } else {
      assert (xs + ys)[1..] == xs[1..] + ys;
      CompactAppend(xs[1..], ys);
    }
  }

  function Digit(d: nat): char
    requires d < 10
  {
    "0123456789"[d]
  }

  /** `String(n)` for a natural number: its decimal digits, most significant first. */
  function Decimal(n: nat): (s: string)
    ensures |s| >= 1
    ensures forall i | 0 <= i < |s| :: '0' <= s[i] <= '9'
    ensures s[0] == '0' ==> n == 0
  {
    if n < 10 then [Digit(n)] else Decimal(n / 10) + [Digit(n % 10)]
  }

  /** The number a string of decimal digits denotes. */
  function DecimalValue(s: string): nat
    requires forall i | 0 <= i < |s| :: '0' <= s[i] <= '9'
  {
    if s == [] then 0
    else DecimalValue(s[..|s| - 1]) * 10 + (s[|s| - 1] as int - '0' as int)
  }

  /** The rendered timestamp can be read back: `Decimal` loses nothing. */
  lemma {:induction false} DecimalRoundTrip(n: nat)
    ensures DecimalValue(Decimal(n)) == n
  {
    var s := Decimal(n);
    if n >= 10 {
      assert s[..|s| - 1] == Decimal(n / 10);
      DecimalRoundTrip(n / 10);
    }
  }

  /** How `Array.prototype.join` renders one element. */
  function Render(a: Atom): string {
    match a
    case Missing => ""
    case Text(s) => s
    case Millis(n) => Decimal(n)
  }

  /** `_.join(xs, sep)`. */
  function Join(xs: seq<Atom>, sep: string): (r: string)
    ensures xs == [] ==> r == ""
    ensures |xs| >= 1 ==> Render(xs[0]) <= r
    ensures |xs| >= 2 ==> Render(xs[0]) + sep <= r
  {
    if xs == [] then ""
    else if |xs| == 1 then Render(xs[0])
    else Render(xs[0]) + sep + Join(xs[1..], sep)
  }

  /** Appending an element to a non-empty array appends the separator and
      that element's rendering to the joined string. */
  lemma {:induction false} JoinSnoc(xs: seq<Atom>, b: Atom, sep: string)
    requires |xs| >= 1
    ensures Join(xs + [b], sep) == Join(xs, sep) + sep + Render(b)
    decreases |xs|
  {
    if |xs| == 1 {
      assert (xs + [b])[1..] == [b];
    } else {
      assert (xs + [b])[1..] == xs[1..] + [b];
      JoinSnoc(xs[1..], b, sep);
    }
  }

  /** Joining two non-empty arrays back to back joins each and puts one
      separator between them. */
  lemma {:induction false} JoinAppend(xs: seq<Atom>, ys: seq<Atom>, sep: string)
    requires |xs| >= 1 && |ys| >= 1
    ensures Join(xs + ys, sep) == Join(xs, sep) + sep + Join(ys, sep)
    decreases |xs|
  {
    if |xs| == 1 {
      assert (xs + ys)[1..] == ys;
    } else {
      assert (xs + ys)[1..] == xs[1..] + ys;
      JoinAppend(xs[1..], ys, sep);
    }
  }

  /** `t` is a suffix of `s`. */
  predicate EndsWith(s: string, t: string) {
    |t| <= |s| && s[|s| - |t|..] == t
  }

  /** Joining a non-empty array followed by `last` starts with the first
      element's rendering and ends with the separator and `last`'s. */
  lemma {:induction false} JoinEnds(xs: seq<Atom>, last: Atom, sep: string)
    requires |xs| >= 1
    ensures Render(xs[0]) <= Join(xs + [last], sep)
    ensures EndsWith(Join(xs + [last], sep), sep + Render(last))
  {
    JoinSnoc(xs, last, sep);
    assert (xs + [last])[0] == xs[0];
    var j := Join(xs + [last], sep);
    assert j == Join(xs, sep) + (sep + Render(last));
  }
}

=== FILE: manifest_builder.dfy ===
/** Assembling the batch-image request: the per-code entries, the object
    the batch belongs to, the rendering configuration and where the images
    are stored, with an archive file name when the batch belongs to a
    content whose metadata can be read. */
module ManifestBuilder {
  import opened Wrappers
  import opened JsValues
  import opened Lodash
  import opened Responses
  import opened TaskScheduler
  import RenderConfig

  /** The storage container every batch is written to. */
  const CONTAINER: string := "dial"

  /** One `dialcodes` entry: the resolution URL, the printed text and the
      stored image's key. */
  datatype DialEntry = DialEntry(data: string, text: Code, id: FileName)

  datatype Storage = Storage(container: string, path: string, fileName: Option<string>)

  datatype Manifest = Manifest(
    dialcodes: set<DialEntry>,
    objectId: string,
    config: RenderConfig.Config,
    storage: Storage)

  /** The fields read from the owning content: `medium`, `subject`, and
      `gradeLevel`, which `_.concat` spreads when it is an array (a single
      value is a one-element sequence here). */
  datatype ContentFields = ContentFields(medium: Atom, subject: Atom, gradeLevel: seq<Atom>)

  /** The collaborators the builder consults, as their outcomes: the
      registry URL from the environment, the image service's answer for
      each code, the content lookup's reply and the clock reading. */
  datatype Services = Services(
    registryUrl: string,
    render: Code -> Result<FileName, TaskFailure>,
    lookup: Reply<ContentFields>,
    now: nat)

  /** Where a batch's images are stored: under the channel, and under the
      publisher inside it when there is one. */
  function StoragePath(channel: string, publisher: Option<string>): (path: string)
    ensures channel + "/" <= path
    ensures path[|path| - 1] == '/'
    ensures Present(publisher) <==> |path| > |channel| + 1
    ensures Present(publisher) ==> path[|channel| + 1..|path| - 1] == publisher.value
  {
    if Present(publisher) then channel + "/" + publisher.value + "/" else channel + "/"
  }

  /** Two publishers of one channel share a storage path exactly when both
      are absent or both are the same publisher. */
  lemma StoragePathSeparatesPublishers(channel: string, p1: Option<string>, p2: Option<string>)
    ensures StoragePath(channel, p1) == StoragePath(channel, p2)
            <==> Present(p1) == Present(p2) && (Present(p1) ==> p1.value == p2.value)
  {
  }

  /** The array the archive file name is joined from. */
  function FileNameParts(contentId: string, fields: ContentFields, now: nat): seq<Atom> {
    [Text(contentId), fields.medium] + fields.gradeLevel + [fields.subject, Millis(now)]
  }

  /** The archive file name: the truthy parts, joined with `_`. It starts
      with the content id and, when the clock reading is non-zero, ends with
      `_` and the reading's decimal digits, whatever metadata lies between. */
  function ArchiveFileName(contentId: string, fields: ContentFields, now: nat): (name: string)
    ensures contentId != "" ==> contentId <= name
    ensures contentId != "" && now > 0 ==> EndsWith(name, "_" + Decimal(now))
  {
    JoinedPartsFrame(contentId, fields, now);
    Join(Compact(FileNameParts(contentId, fields, now)), "_")
  }

  /** The file-name array is the content id, the metadata, and the clock
      reading, in that order. */
  lemma FileNamePartsShape(contentId: string, fields: ContentFields, now: nat)
    ensures FileNameParts(contentId, fields, now)
            == [Text(contentId)] + ([fields.medium] + fields.gradeLevel + [fields.subject]) + [Millis(now)]
  {
  }

  /** Compacting an array whose first and last elements are truthy keeps
      both ends and compacts the middle. */
  lemma {:induction false} CompactKeepsEnds(first: Atom, middle: seq<Atom>, last: Atom)
    requires !Falsy(first) && !Falsy(last)
    ensures Compact([first] + middle + [last]) == [first] + Compact(middle) + [last]
  {
    CompactAppend([first] + middle, [last]);
    CompactAppend([first], middle);
    assert Compact([last]) == [last] by {
      assert [last][1..] == [];
    }
    assert Compact([first]) == [first] by {
      assert [first][1..] == [];
    }
  }

  /** The joined file-name parts keep the content id in front and the
      clock reading at the end. */
  lemma {:induction false} JoinedPartsFrame(contentId: string, fields: ContentFields, now: nat)
    ensures contentId != "" ==> contentId <= Join(Compact(FileNameParts(contentId, fields, now)), "_")
    ensures contentId != "" && now > 0 ==>
              EndsWith(Join(Compact(FileNameParts(contentId, fields, now)), "_"), "_" + Decimal(now))
  {
    var parts := FileNameParts(contentId, fields, now);
    if contentId != "" && now > 0 {
      var middle := [fields.medium] + fields.gradeLevel + [fields.subject];
      FileNamePartsShape(contentId, fields, now);
      CompactKeepsEnds(Text(contentId), middle, Millis(now));
      var head := [Text(contentId)] + Compact(middle);
      assert Compact(parts) == head + [Millis(now)];
      JoinEnds(head, Millis(now), "_");
    } else if contentId != "" {
      assert Compact(parts) == [Text(contentId)] + Compact(parts[1..]);
    }
  }

  /** Metadata whose every field is missing or empty compacts to nothing. */
  lemma AbsentMetadataCompactsAway(fields: ContentFields)
    requires Falsy(fields.medium) && Falsy(fields.subject)
    requires forall i | 0 <= i < |fields.gradeLevel| :: Falsy(fields.gradeLevel[i])
    ensures Compact([fields.medium] + fields.gradeLevel + [fields.subject]) == []
  {
  }

  /** Missing metadata leaves no trace: with no medium, subject or grade
      level the name is the content id, `_`, and the clock reading. */
  lemma {:induction false} ArchiveFileNameWithoutMetadata(contentId: string, fields: ContentFields, now: nat)
    requires contentId != "" && now > 0
    requires Falsy(fields.medium) && Falsy(fields.subject)
    requires forall i | 0 <= i < |fields.gradeLevel| :: Falsy(fields.gradeLevel[i])
    ensures ArchiveFileName(contentId, fields, now) == contentId + "_" + Decimal(now)
  {
    var middle := [fields.medium] + fields.gradeLevel + [fields.subject];
    FileNamePartsShape(contentId, fields, now);
    CompactKeepsEnds(Text(contentId), middle, Millis(now));
    AbsentMetadataCompactsAway(fields);
    var parts := [Text(contentId), Millis(now)];
    assert Compact(FileNameParts(contentId, fields, now)) == parts;
    assert parts[1..] == [Millis(now)];
    assert Join(parts, "_") == Render(Text(contentId)) + "_" + Join([Millis(now)], "_");
  }

  /** The metadata keeps its order when compacted: medium, grade levels, subject. */
  lemma MetadataOrder(fields: ContentFields)
    ensures Compact([fields.medium] + fields.gradeLevel + [fields.subject])
            == Compact([fields.medium]) + Compact(fields.gradeLevel) + Compact([fields.subject])
  {
    CompactAppend([fields.medium] + fields.gradeLevel, [fields.subject]);
    CompactAppend([fields.medium], fields.gradeLevel);
  }

  /** The content id joined with the compacted metadata. */
  lemma JoinHead(contentId: string, metadata: seq<Atom>)
    ensures Join([Text(contentId)] + metadata, "_")
            == contentId + (if metadata == [] then "" else "_" + Join(metadata, "_"))
  {
    if metadata == [] {
      assert [Text(contentId)] + metadata == [Text(contentId)];
    } else {
      JoinAppend([Text(contentId)], metadata, "_");
      assert Join([Text(contentId)], "_") == contentId;
    }
  }

  /** The whole archive file name: the content id, then the truthy metadata
      (medium, grade levels, subject, in that order) each after a `_`, then
      `_` and the clock reading. */
  lemma {:induction false} ArchiveFileNameLayout(contentId: string, fields: ContentFields, now: nat)
    requires contentId != "" && now > 0
    ensures var metadata := Compact([fields.medium] + fields.gradeLevel + [fields.subject]);
            && metadata == Compact([fields.medium]) + Compact(fields.gradeLevel) + Compact([fields.subject])
            && ArchiveFileName(contentId, fields, now)
               == contentId + (if metadata == [] then "" else "_" + Join(metadata, "_")) + "_" + Decimal(now)
  {
    var middle := [fields.medium] + fields.gradeLevel + [fields.subject];
    MetadataOrder(fields);
    var metadata := Compact(middle);
    var head := [Text(contentId)] + metadata;
    FileNamePartsShape(contentId, fields, now);
    CompactKeepsEnds(Text(contentId), middle, Millis(now));
    assert Compact(FileNameParts(contentId, fields, now)) == head + [Millis(now)];
    JoinSnoc(head, Millis(now), "_");
    JoinHead(contentId, metadata);
    assert ArchiveFileName(contentId, fields, now) == Join(head, "_") + "_" + Render(Millis(now));
  }

  /** The `dialcodes` entry of one collected result. */
  function EntryFor(registryUrl: string, code: Code, fileName: FileName): DialEntry {
    DialEntry(registryUrl + code, code, fileName)
  }

  /** The `dialcodes` entries of a batch: one per result key, no two with
      the same text. */
  function Entries(results: map<Code, FileName>, registryUrl: string): (entries: set<DialEntry>)
    ensures forall e | e in entries :: e.text in results && e.id == results[e.text] && e.data == registryUrl + e.text
    ensures forall c | c in results :: EntryFor(registryUrl, c, results[c]) in entries
    ensures forall e1, e2 | e1 in entries && e2 in entries && e1.text == e2.text :: e1 == e2
    ensures |entries| == |results|
  {
    EntryCount(results, results.Keys, registryUrl);
    set c | c in results :: EntryFor(registryUrl, c, results[c])
  }

  /** Entries are told apart by their text, so there are as many as keys. */
  lemma {:induction false} EntryCount(results: map<Code, FileName>, keys: set<Code>, registryUrl: string)
    requires keys <= results.Keys
    ensures |set c | c in keys :: EntryFor(registryUrl, c, results[c])| == |keys|
    decreases |keys|
  {
    if keys != {} {
      var k :| k in keys;
      var rest := keys - {k};
      EntryCount(results, rest, registryUrl);
      var all := set c | c in keys :: EntryFor(registryUrl, c, results[c]);
      var fewer := set c | c in rest :: EntryFor(registryUrl, c, results[c]);
      assert all == fewer + {EntryFor(registryUrl, k, results[k])};
      assert EntryFor(registryUrl, k, results[k]) !in fewer;
    }
  }

  /** The request built when every image task succeeded, before the content
      lookup is consulted. */
  function BaseManifest(results: map<Code, FileName>, config: RenderConfig.Config, channel: string,
                        publisher: Option<string>, contentId: Option<string>, registryUrl: string): Manifest
  {
    Manifest(
      Entries(results, registryUrl),
      if Present(contentId) then contentId.value else channel,
      config,
      Storage(CONTAINER, StoragePath(channel, publisher), None))
  }

  /** Builds the batch-image request for `codes`. Fails, with no request at
      all, when any image task fails; otherwise holds one entry per distinct
      code and names an archive file only when there is a content id and its
      metadata was read successfully. */
  function Prepare(codes: seq<Code>, config: RenderConfig.Config, channel: string,
                   publisher: Option<string>, contentId: Option<string>, s: Services)
    : (r: Result<Manifest, TaskFailure>)
    ensures r.Failure? <==> exists i | 0 <= i < |codes| :: s.render(codes[i]).Failure?
    ensures r.Success? ==> forall e | e in r.value.dialcodes ::
              e.text in codes && e.data == s.registryUrl + e.text && s.render(e.text) == Success(e.id)
    ensures r.Success? ==> forall i | 0 <= i < |codes| ::
              EntryFor(s.registryUrl, codes[i], s.render(codes[i]).value) in r.value.dialcodes
    ensures r.Success? ==> |r.value.dialcodes| <= |codes|
    ensures r.Success? ==> (|r.value.dialcodes| == |codes| <==> Distinct(codes))
    ensures r.Success? ==> r.value.objectId == (if Present(contentId) then contentId.value else channel)
    ensures r.Success? ==> r.value.config == config
    ensures r.Success? ==> r.value.storage.container == CONTAINER
    ensures r.Success? ==> r.value.storage.path == StoragePath(channel, publisher)
    ensures r.Success? ==> (r.value.storage.fileName.Some? <==> Present(contentId) && Accepted(s.lookup, {SuccessCode}))
    ensures r.Success? && r.value.storage.fileName.Some? ==>
              r.value.storage.fileName.value == ArchiveFileName(contentId.value, s.lookup.response.result, s.now)
    ensures r.Success? && r.value.storage.fileName.Some? ==> contentId.value <= r.value.storage.fileName.value
  {
    match RunTasks(codes, s.render)
    case Failure(e) => Failure(e)
    case Success(results) =>
      var base := BaseManifest(results, config, channel, publisher, contentId, s.registryUrl);
      if Present(contentId) && Accepted(s.lookup, {SuccessCode}) then
        var name := ArchiveFileName(contentId.value, s.lookup.response.result, s.now);
        Success(base.(storage := base.storage.(fileName := Some(name))))
      else
        Success(base)
  }

  /** The content lookup is not fatal: whatever it answers, the batch
      succeeds or fails alike and yields the same request apart from the
      archive file name, which a failed lookup, or a batch without a
      content id, leaves unset. */
  lemma LookupOnlyNamesArchive(codes: seq<Code>, config: RenderConfig.Config, channel: string,
                               publisher: Option<string>, contentId: Option<string>,
                               s: Services, other: Reply<ContentFields>)
    ensures var r1, r2 := Prepare(codes, config, channel, publisher, contentId, s),
                          Prepare(codes, config, channel, publisher, contentId, s.(lookup := other));
            && r1.Success? == r2.Success?
            && (r1.Success? ==>
                  r1.value.(storage := r1.value.storage.(fileName := None))
                  == r2.value.(storage := r2.value.storage.(fileName := None)))
    ensures !Present(contentId) || !Accepted(s.lookup, {SuccessCode}) ==>
            var r := Prepare(codes, config, channel, publisher, contentId, s);
            r.Success? ==> r.value.storage.fileName == None
  {
  }
}

=== FILE: render_config.dfy ===
/** The image-rendering configuration of a batch: fixed defaults that the
    caller's `qrCodeSpec` fields override. */
module RenderConfig {

  datatype Setting = TextSetting(text: string) | NumberSetting(number: real)

  type Config = map<string, Setting>

  /** The defaults every batch starts from. */
  const Defaults: Config := map[
    "errorCorrectionLevel" := TextSetting("H"),
    "pixelsPerBlock" := NumberSetting(2.0),
    "qrCodeMargin" := NumberSetting(3.0),
    "textFontName" := TextSetting("Verdana"),
    "textFontSize" := NumberSetting(11.0),
    "textCharacterSpacing" := NumberSetting(0.1),
    "imageFormat" := TextSetting("png"),
    "colourModel" := TextSetting("Grayscale"),
    "imageBorderSize" := NumberSetting(1.0)
  ]

  /** Flat merge: every key of either map, the override's value winning. */
  function Merge(base: Config, overrides: Config): (merged: Config)
    ensures merged.Keys == base.Keys + overrides.Keys
    ensures forall k | k in overrides :: merged[k] == overrides[k]
    ensures forall k | k in base && k !in overrides :: merged[k] == base[k]
  {
    base + overrides
  }

  /** The configuration a batch is rendered with. No default is ever lost,
      and a caller that names no setting gets exactly the defaults. */
  function BatchConfig(qrCodeSpec: Config): (config: Config)
    ensures forall k | k in config :: k in Defaults || k in qrCodeSpec
    ensures Defaults.Keys <= config.Keys
    ensures forall k | k in qrCodeSpec :: k in config && config[k] == qrCodeSpec[k]
    ensures forall k | k in Defaults && k !in qrCodeSpec :: k in config && config[k] == Defaults[k]
    ensures |config| >= |Defaults|
    ensures qrCodeSpec.Keys <= Defaults.Keys ==> config.Keys == Defaults.Keys
    ensures qrCodeSpec == map[] ==> config == Defaults
    ensures "imageFormat" !in qrCodeSpec ==> "imageFormat" in config && config["imageFormat"] == TextSetting("png")
  {
    var config := Merge(Defaults, qrCodeSpec);
    SubsetSize(Defaults.Keys, config.Keys);
    config
  }

  /** A subset has no more elements than its superset. */
  lemma {:induction false} SubsetSize<T>(a: set<T>, b: set<T>)
    requires a <= b
    ensures |a| <= |b|
    decreases |a|
  {
    if a != {} {
      var x :| x in a;
      SubsetSize(a - {x}, b - {x});
    }
  }
}

=== FILE: responses.dfy ===
/** What the service gets back from every collaborator it calls (the
    dial-code registry, the content service): either a transport error, which
    may still carry a response, or a delivered response with a
    `responseCode`, an HTTP `statusCode` and a `result` payload. */
module Responses {
  import opened Wrappers

  /** The `responseCode` values the service compares against. */
  datatype ResponseCode =
    | SuccessCode
    | PartialSuccessCode
    | ClientErrorCode
    | ServerErrorCode
    | OtherCode(name: string)

  datatype Response<T> = Response(responseCode: ResponseCode, statusCode: Option<int>, result: T)

  /** The `(err, res)` pair of a collaborator callback. */
  datatype Reply<T> =
    | TransportError(partial: Option<Response<T>>)
    | Delivered(response: Response<T>)

  /** The `res` half of the callback, when there is one. */
  function Body<T>(reply: Reply<T>): Option<Response<T>> {
    match reply
    case TransportError(partial) => partial
    case Delivered(response) => Some(response)
  }

  /** The guard `!err && res.responseCode` is one of `codes`. */
  predicate Accepted<T>(reply: Reply<T>, codes: set<ResponseCode>) {
    reply.Delivered? && reply.response.responseCode in codes
  }

  /** The HTTP status an upstream failure is answered with: the upstream's
      own `statusCode` when it is a valid status in [100, 600), else 500. */
  function UpstreamStatus<T>(res: Option<Response<T>>): (status: int)
    ensures 100 <= status < 600
    ensures status != 500 ==> res.Some? && res.value.statusCode == Some(status)
    ensures res.Some? && res.value.statusCode.Some? && 100 <= res.value.statusCode.value < 600
            ==> status == res.value.statusCode.value
  {
    if res.Some? && res.value.statusCode.Some? && 100 <= res.value.statusCode.value < 600
    then res.value.statusCode.value
    else 500
  }
}

=== FILE: task_scheduler.dfy ===
/** The per-code image tasks of a batch and how their outcomes are folded.
    The tasks object is keyed by dial code, so a code listed twice gives one
    task; the fold is all-or-nothing: one failed task fails the whole batch
    and no partial result survives. */
module TaskScheduler {
  import opened Wrappers

  type Code = string

  /** The storage key the image service reports for one rendered code. */
  type FileName = string

  /** The error an image task passes to its callback. */
  datatype TaskFailure = TaskFailure(message: string)

  /** No code occurs twice. */
  predicate Distinct(codes: seq<Code>) {
    forall i, j | 0 <= i < j < |codes| :: codes[i] != codes[j]
  }

  /** `results` is what the batch yields when every task succeeds: one
      entry per distinct code, holding that code's file name, and nothing
      else; at most one entry per input code, and exactly one per input code
      precisely when no code is repeated. */
  ghost predicate Collects(codes: seq<Code>, render: Code -> Result<FileName, TaskFailure>, results: map<Code, FileName>) {
    && (forall i | 0 <= i < |codes| :: codes[i] in results && render(codes[i]) == Success(results[codes[i]]))
    && (forall c | c in results :: c in codes && render(c) == Success(results[c]))
    && |results| <= |codes|
    && (|results| == |codes| <==> Distinct(codes))
  }

  /** Runs the image task of every code (`render` is the outcome of the
      image service for that code) and collects the results keyed by code. */
  function RunTasks(codes: seq<Code>, render: Code -> Result<FileName, TaskFailure>)
    : (r: Result<map<Code, FileName>, TaskFailure>)
    ensures r.Failure? <==> exists i | 0 <= i < |codes| :: render(codes[i]).Failure?
    ensures r.Failure? ==> exists i | 0 <= i < |codes| :: render(codes[i]) == Failure(r.error)
    ensures r.Success? ==> Collects(codes, render, r.value)
    decreases |codes|
  {
    if codes == [] then Success(map[])
    else
      match render(codes[0])
      case Failure(e) => Failure(e)
      case Success(fileName) =>
        match RunTasks(codes[1..], render)
        case Failure(e) =>
          TailIndices(codes);
          Failure(e)
        case Success(results) =>
          TailIndices(codes);
          CollectsCons(codes, render, fileName, results);
          Success(results[codes[0] := fileName])
  }

  /** Index `i` of the tail is index `i + 1` of the whole. */
  lemma TailIndices(codes: seq<Code>)
    requires codes != []
    ensures forall i | 0 <= i < |codes[1..]| :: codes[1..][i] == codes[i + 1]
  {
  }

  /** One successful task in front of a collected tail extends the collection. */
  lemma CollectsCons(codes: seq<Code>, render: Code -> Result<FileName, TaskFailure>,
                     fileName: FileName, results: map<Code, FileName>)
    requires codes != []
    requires render(codes[0]) == Success(fileName)
    requires Collects(codes[1..], render, results)
    ensures Collects(codes, render, results[codes[0] := fileName])
  {
  }
}

=== FILE: validation.dfy ===
/** The request checks the service performs before calling any
    collaborator: the generate request's count, the list request's
    publisher, and the shape of a content-link request. */
module Validation {
  import opened Wrappers
  import opened JsValues
  import RenderConfig

  /** Why a request is answered with 400 before any collaborator is called. */
  datatype Rejection =
    | MissingDialcodes   // generate: no `request.dialcodes`
    | InvalidCount       // generate: `count` missing, zero or not a safe integer
    | MissingSearch      // list: no `request.search.publisher`

  /** `request.dialcodes` of a generate request. */
  datatype DialcodesSpec = DialcodesSpec(count: JsValue, qrCodeSpec: Option<RenderConfig.Config>, publisher: Option<string>)
  datatype GenerateRequest = GenerateRequest(dialcodes: Option<DialcodesSpec>)
  datatype GenerateBody = GenerateBody(request: Option<GenerateRequest>)

  /** A generate request that passed both checks, with its count. */
  datatype ValidGenerate = ValidGenerate(spec: DialcodesSpec, count: int)

  /** The two checks of a generate request. The count must be a non-zero
      whole number of magnitude at most 2^53 - 1; negative counts pass. */
  function ValidateGenerate(body: GenerateBody): (r: Result<ValidGenerate, Rejection>)
    ensures r == Failure(MissingDialcodes) <==> body.request.None? || body.request.value.dialcodes.None?
    ensures r.Success? ==> body.request.Some? && body.request.value.dialcodes == Some(r.value.spec)
    ensures r.Success? ==> && r.value.count != 0
                           && -MAX_SAFE_INTEGER <= r.value.count <= MAX_SAFE_INTEGER
                           && r.value.spec.count == Number(r.value.count as real)
    ensures body.request.Some? && body.request.value.dialcodes.Some? ==>
              var count := body.request.value.dialcodes.value.count;
              (count.Number? && count.x == count.x.Floor as real && count.x != 0.0
               && -MAX_SAFE_INTEGER <= count.x.Floor <= MAX_SAFE_INTEGER) ==> r.Success?
    ensures r.Failure? ==> r.error == MissingDialcodes || r.error == InvalidCount
  {
    if body.request.None? || body.request.value.dialcodes.None? then Failure(MissingDialcodes)
    else
      var spec := body.request.value.dialcodes.value;
      if !Truthy(spec.count) || !IsSafeInteger(spec.count) then Failure(InvalidCount)
      else Success(ValidGenerate(spec, spec.count.x.Floor))
  }

  /** `request.search` of a list request. */
  datatype SearchSpec = SearchSpec(publisher: Option<string>, qrCodeSpec: Option<RenderConfig.Config>)
  datatype ListRequest = ListRequest(search: Option<SearchSpec>)
  datatype ListBody = ListBody(request: Option<ListRequest>)

  /** A list request must name a publisher. */
  function ValidateList(body: ListBody): (r: Result<SearchSpec, Rejection>)
    ensures r.Success? <==> body.request.Some? && body.request.value.search.Some?
                            && Present(body.request.value.search.value.publisher)
    ensures r.Success? ==> body.request.value.search == Some(r.value)
    ensures r.Failure? ==> r.error == MissingSearch
  {
    if body.request.None? || body.request.value.search.None? || !Present(body.request.value.search.value.publisher)
    then Failure(MissingSearch)
    else Success(body.request.value.search.value)
  }

  /** `request.content` of a content-link request: the content
      identifier(s) and dial code(s), each a string or an array. */
  datatype LinkContent = LinkContent(identifier: JsValue, dialcode: JsValue)
  datatype LinkRequest = LinkRequest(content: Option<LinkContent>)
  datatype LinkBody = LinkBody(request: Option<LinkRequest>)

  /** `x < k` in JavaScript, where an `undefined` length compares false. */
  predicate Below(len: Option<nat>, k: int) {
    len.Some? && len.value < k
  }

  /** `x > k` in JavaScript, where an `undefined` length compares false. */
  predicate Above(len: Option<nat>, k: int) {
    len.Some? && len.value > k
  }

  /** Whether a content-link request may be forwarded. For identifiers and
      codes given as strings or arrays, it is accepted exactly when both are
      non-empty and at least one side has length one: one content linked to
      many codes, or many contents linked to one code. */
  function CheckContentLinkRequest(body: LinkBody): (ok: bool)
    ensures ok ==> body.request.Some? && body.request.value.content.Some?
    ensures ok ==> Truthy(body.request.value.content.value.identifier)
                   && Truthy(body.request.value.content.value.dialcode)
    ensures body.request.Some? && body.request.value.content.Some? ==>
              var c := body.request.value.content.value;
              var ids, codes := Length(c.identifier), Length(c.dialcode);
              ids.Some? && codes.Some? ==>
                (ok <==> 1 <= ids.value && 1 <= codes.value && (ids.value == 1 || codes.value == 1))
  {
    if body.request.None? || body.request.value.content.None?
       || !Truthy(body.request.value.content.value.identifier)
       || !Truthy(body.request.value.content.value.dialcode)
    then false
    else
      var c := body.request.value.content.value;
      var dialcodesLength := Length(c.dialcode);
      var identifiersLength := Length(c.identifier);
      !(Below(dialcodesLength, 1) || Below(identifiersLength, 1)
        || (Above(dialcodesLength, 1) && Above(identifiersLength, 1)))
  }

  /** A truthy identifier without a `length` (a number, say) escapes the
      length checks: paired with any non-empty string or array of codes, the
      request is accepted. */
  lemma UnsizedIdentifierAccepted(body: LinkBody)
    requires body.request.Some? && body.request.value.content.Some?
    requires var c := body.request.value.content.value;
             Truthy(c.identifier) && Length(c.identifier).None?
             && Length(c.dialcode).Some? && Length(c.dialcode).value >= 1
    ensures CheckContentLinkRequest(body)
  {
  }
}

=== FILE: workflow.dfy ===
/** The three workflows that can submit an image batch (generate, list,
    reserve) and the outcome each answers with. Each collaborator call is
    represented by its reply; the image pipeline by the services the
    builder consults and the outcome of submitting the batch. */
module Workflow {
  import opened Wrappers
  import opened JsValues
  import opened Responses
  import RenderConfig
  import opened TaskScheduler
  import opened ManifestBuilder
  import opened Validation

  /** The identifier the batch-image service answers a submitted batch with. */
  type ProcessId = string

  /** How a workflow answers: 400 before any call, the upstream's status
      (with the upstream result when the source forwards it), 207 partial
      success, or 200. */
  datatype Outcome<R> =
    | BadRequest(reason: Rejection)
    | UpstreamFailure(status: int, body: Option<R>)
    | Partial(result: R)
    | Complete(result: R)

  function HttpStatus<R>(o: Outcome<R>): int {
    match o
    case BadRequest(_) => 400
    case UpstreamFailure(status, _) => status
    case Partial(_) => 207
    case Complete(_) => 200
  }

  /** The image services plus the batch service's answer to a submitted
      manifest. */
  datatype Pipeline = Pipeline(services: Services, submit: Manifest -> Result<ProcessId, string>)

  datatype PipelineFailure = RenderFailed(cause: TaskFailure) | SubmitFailed(message: string)

  /** What the image step contributes: nothing (not requested), a process
      id, or a failure that degrades the answer to partial success. */
  datatype ImageStage = Skipped | Attached(processId: ProcessId) | Degraded(failure: PipelineFailure)

  /** Images are made when the caller sent a non-empty `qrCodeSpec` and
      there is at least one code. */
  predicate ImagesRequested(qrCodeSpec: Option<RenderConfig.Config>, codes: seq<Code>) {
    qrCodeSpec.Some? && qrCodeSpec.value != map[] && |codes| > 0
  }

  /** Builds the batch request with the merged configuration and submits it. */
  function RunImageStage(qrCodeSpec: Option<RenderConfig.Config>, codes: seq<Code>, channel: string,
                         publisher: Option<string>, contentId: Option<string>, p: Pipeline): (stage: ImageStage)
    ensures stage.Skipped? <==> !ImagesRequested(qrCodeSpec, codes)
    ensures (stage.Degraded? && stage.failure.RenderFailed?)
            <==> ImagesRequested(qrCodeSpec, codes) && exists i | 0 <= i < |codes| :: p.services.render(codes[i]).Failure?
    ensures stage.Attached? ==> forall i | 0 <= i < |codes| :: p.services.render(codes[i]).Success?
    ensures stage.Attached? ==>
              exists m: Manifest :: && p.submit(m) == Success(stage.processId)
                                    && m.config == RenderConfig.BatchConfig(qrCodeSpec.value)
                                    && |m.dialcodes| <= |codes|
                                    && m.objectId == (if Present(contentId) then contentId.value else channel)
    ensures ImagesRequested(qrCodeSpec, codes) ==>
              var prepared := Prepare(codes, RenderConfig.BatchConfig(qrCodeSpec.value), channel, publisher, contentId, p.services);
              prepared.Success? ==>
                && (stage.Attached? <==> p.submit(prepared.value).Success?)
                && (stage.Attached? ==> p.submit(prepared.value) == Success(stage.processId))
                && (stage.Degraded? ==> stage.failure == SubmitFailed(p.submit(prepared.value).error))
  {
    if !ImagesRequested(qrCodeSpec, codes) then Skipped
    else
      match Prepare(codes, RenderConfig.BatchConfig(qrCodeSpec.value), channel, publisher, contentId, p.services)
      case Failure(e) => Degraded(RenderFailed(e))
      case Success(m) =>
        match p.submit(m)
        case Failure(message) => Degraded(SubmitFailed(message))
        case Success(processId) => Attached(processId)
  }

  /** The registry's answers that count as success when minting or listing. */
  const MintAccepted: set<ResponseCode> := {SuccessCode, PartialSuccessCode}

  // ---------------------------------------------------------------- generate

  datatype GenerateResult = GenerateResult(dialcodes: seq<Code>, processId: Option<ProcessId>)

  /** More codes requested than the configured maximum downgrades an
      otherwise complete answer to partial success. */
  function CapCount<R>(count: int, maxCount: int, result: R): (o: Outcome<R>)
    ensures o.Partial? || o.Complete?
    ensures o.Partial? <==> count > maxCount
    ensures o.result == result
  {
    if count > maxCount then Partial(result) else Complete(result)
  }

  /** The generate workflow: validate, mint codes in the registry, optionally
      submit their images, and answer. */
  function Generate(body: GenerateBody, channel: string, registry: Reply<seq<Code>>, p: Pipeline, maxCount: int)
    : (r: Outcome<GenerateResult>)
    ensures r.BadRequest? <==> ValidateGenerate(body).Failure?
    ensures r.BadRequest? ==> r.reason == ValidateGenerate(body).error
    ensures r.UpstreamFailure? <==> ValidateGenerate(body).Success? && !Accepted(registry, MintAccepted)
    ensures r.UpstreamFailure? ==> r.status == UpstreamStatus(Body(registry)) && r.body.None?
    ensures r.Partial? || r.Complete? ==>
              Accepted(registry, MintAccepted) && r.result.dialcodes == registry.response.result
    ensures r.Complete? ==> ValidateGenerate(body).value.count <= maxCount
    ensures 100 <= HttpStatus(r) < 600
  {
    match ValidateGenerate(body)
    case Failure(reason) => BadRequest(reason)
    case Success(v) =>
      if !Accepted(registry, MintAccepted) then UpstreamFailure(UpstreamStatus(Body(registry)), None)
      else
        var codes := registry.response.result;
        match RunImageStage(v.spec.qrCodeSpec, codes, channel, v.spec.publisher, None, p)
        case Degraded(_) => Partial(GenerateResult(codes, None))
        case Skipped => CapCount(v.count, maxCount, GenerateResult(codes, None))
        case Attached(processId) => CapCount(v.count, maxCount, GenerateResult(codes, Some(processId)))
  }

  /** A rejected request is answered before the registry is called: neither
      the registry's reply nor the image services can change the answer. */
  lemma GenerateRejectsBeforeRegistry(body: GenerateBody, channel: string, maxCount: int,
                                      registry1: Reply<seq<Code>>, p1: Pipeline,
                                      registry2: Reply<seq<Code>>, p2: Pipeline)
    requires ValidateGenerate(body).Failure?
    ensures Generate(body, channel, registry1, p1, maxCount) == Generate(body, channel, registry2, p2, maxCount)
    ensures HttpStatus(Generate(body, channel, registry1, p1, maxCount)) == 400
  {
  }

  /** The answer is 200 exactly when the request is valid, the registry
      accepted it, the count is within the maximum and the image step, if
      requested, went through; the process id is attached exactly when the
      image step went through. */
  lemma GenerateOutcomeCases(body: GenerateBody, channel: string, registry: Reply<seq<Code>>, p: Pipeline, maxCount: int)
    requires ValidateGenerate(body).Success? && Accepted(registry, MintAccepted)
    ensures var v, codes := ValidateGenerate(body).value, registry.response.result;
            var stage := RunImageStage(v.spec.qrCodeSpec, codes, channel, v.spec.publisher, None, p);
            var r := Generate(body, channel, registry, p, maxCount);
            && (r.Complete? <==> v.count <= maxCount && !stage.Degraded?)
            && (r.Partial? <==> v.count > maxCount || stage.Degraded?)
            && (r.Partial? || r.Complete?)
            && (r.result.processId.Some? <==> stage.Attached?)
            && (stage.Attached? ==> r.result.processId == Some(stage.processId))
  {
  }

  /** A failed image task never loses the minted codes: the answer is 207
      with every code and no process id. */
  lemma GenerateRenderFailureKeepsCodes(body: GenerateBody, channel: string, registry: Reply<seq<Code>>,
                                        p: Pipeline, maxCount: int, i: nat)
    requires ValidateGenerate(body).Success? && Accepted(registry, MintAccepted)
    requires ImagesRequested(ValidateGenerate(body).value.spec.qrCodeSpec, registry.response.result)
    requires i < |registry.response.result| && p.services.render(registry.response.result[i]).Failure?
    ensures Generate(body, channel, registry, p, maxCount) == Partial(GenerateResult(registry.response.result, None))
  {
  }

  /** Without a non-empty `qrCodeSpec` the image services are never consulted
      and no process id is attached. */
  lemma GenerateWithoutImages(body: GenerateBody, channel: string, registry: Reply<seq<Code>>,
                              p1: Pipeline, p2: Pipeline, maxCount: int)
    requires ValidateGenerate(body).Success?
    requires var spec := ValidateGenerate(body).value.spec;
             spec.qrCodeSpec.None? || spec.qrCodeSpec.value == map[]
    ensures Generate(body, channel, registry, p1, maxCount) == Generate(body, channel, registry, p2, maxCount)
    ensures var r := Generate(body, channel, registry, p1, maxCount);
            r.Partial? || r.Complete? ==> r.result.processId.None?
  {
  }

  // -------------------------------------------------------------------- list

  datatype ListResult = ListResult(dialcodes: seq<Code>, processId: Option<ProcessId>)

  /** The list workflow: a publisher is required; the listed codes' images
      are submitted when the search carried a non-empty `qrCodeSpec`. */
  function List(body: ListBody, channel: string, registry: Reply<seq<Code>>, p: Pipeline): (r: Outcome<ListResult>)
    ensures r.BadRequest? <==> ValidateList(body).Failure?
    ensures r.UpstreamFailure? <==> ValidateList(body).Success? && !Accepted(registry, MintAccepted)
    ensures r.UpstreamFailure? ==> r.status == UpstreamStatus(Body(registry)) && r.body.None?
    ensures r.Partial? || r.Complete? ==>
              Accepted(registry, MintAccepted) && r.result.dialcodes == registry.response.result
    ensures r.Partial? ==> r.result.processId.None?
    ensures r.Partial? <==> ValidateList(body).Success? && Accepted(registry, MintAccepted)
                            && RunImageStage(ValidateList(body).value.qrCodeSpec, registry.response.result,
                                             channel, ValidateList(body).value.publisher, None, p).Degraded?
    ensures r.Complete? ==>
              var stage := RunImageStage(ValidateList(body).value.qrCodeSpec, registry.response.result,
                                         channel, ValidateList(body).value.publisher, None, p);
              && (r.result.processId.Some? <==> stage.Attached?)
              && (stage.Attached? ==> r.result.processId == Some(stage.processId))
    ensures 100 <= HttpStatus(r) < 600
  {
    match ValidateList(body)
    case Failure(reason) => BadRequest(reason)
    case Success(search) =>
      if !Accepted(registry, MintAccepted) then UpstreamFailure(UpstreamStatus(Body(registry)), None)
      else
        var codes := registry.response.result;
        match RunImageStage(search.qrCodeSpec, codes, channel, search.publisher, None, p)
        case Degraded(_) => Partial(ListResult(codes, None))
        case Skipped => Complete(ListResult(codes, None))
        case Attached(processId) => Complete(ListResult(codes, Some(processId)))
  }

  // ----------------------------------------------------------------- reserve

  /** The reservation's result: the reserved codes, the content's version
      key, and the process id once a batch was submitted. */
  datatype ReserveResult = ReserveResult(reservedDialcodes: seq<Code>, versionKey: Option<string>, processId: Option<ProcessId>)

  /** `request.dialcodes` of a reserve request, as far as the image step reads it. */
  datatype ReserveSpec = ReserveSpec(qrCodeSpec: Option<RenderConfig.Config>, publisher: Option<string>)
  datatype ReserveRequest = ReserveRequest(dialcodes: Option<ReserveSpec>)
  datatype ReserveBody = ReserveBody(request: Option<ReserveRequest>)

  /** The content service's answer to the update. */
  datatype UpdateResult = UpdateResult(versionKey: Option<string>)

  /** The image settings of a reserve request, `{}` when absent. */
  function ImageSpecOf(body: ReserveBody): ReserveSpec {
    if body.request.Some? && body.request.value.dialcodes.Some? then body.request.value.dialcodes.value
    else ReserveSpec(None, None)
  }

  /** The reservation after the image step: unchanged when no images were
      requested, carrying the process id when the batch was submitted, and
      None when the image step failed. */
  function AfterImages(spec: ReserveSpec, contentId: string, channel: string, reserved: ReserveResult, p: Pipeline)
    : (linked: Option<ReserveResult>)
    ensures linked.Some? ==> linked.value == reserved.(processId := linked.value.processId)
    ensures linked.Some? && linked.value.processId != reserved.processId ==>
              ImagesRequested(spec.qrCodeSpec, reserved.reservedDialcodes)
    ensures linked.None? ==> ImagesRequested(spec.qrCodeSpec, reserved.reservedDialcodes)
    ensures var stage := RunImageStage(spec.qrCodeSpec, reserved.reservedDialcodes, channel, spec.publisher, Some(contentId), p);
            && (linked.None? <==> stage.Degraded?)
            && (stage.Skipped? ==> linked == Some(reserved))
            && (stage.Attached? ==> linked == Some(reserved.(processId := Some(stage.processId))))
  {
    match RunImageStage(spec.qrCodeSpec, reserved.reservedDialcodes, channel, spec.publisher, Some(contentId), p)
    case Degraded(_) => None
    case Skipped => Some(reserved)
    case Attached(processId) => Some(reserved.(processId := Some(processId)))
  }

  /** Which response's `responseCode` the content-update step tests: the
      reservation's, as the service does, or the update's own. */
  datatype UpdateCheck = ReserveResponseCode | UpdateResponseCode

  function TestedCode(check: UpdateCheck, reserveCode: ResponseCode, update: Reply<UpdateResult>): ResponseCode {
    match check
    case ReserveResponseCode => reserveCode
    case UpdateResponseCode => if update.Delivered? then update.response.responseCode else ServerErrorCode
  }

  /** The content-update step: fails on a transport error or when the tested
      code is not SUCCESS, answering with the update's status; otherwise
      takes over the update's version key, if it returned one, and changes
      nothing else. */
  function ContentUpdate(tested: ResponseCode, update: Reply<UpdateResult>, linked: ReserveResult)
    : (r: Result<ReserveResult, int>)
    ensures r.Failure? <==> update.TransportError? || tested != SuccessCode
    ensures r.Failure? ==> r.error == UpstreamStatus(Body(update))
    ensures r.Success? ==> r.value == linked.(versionKey := r.value.versionKey)
    ensures r.Success? && update.Delivered? && Present(update.response.result.versionKey) ==>
              r.value.versionKey == update.response.result.versionKey
    ensures r.Success? && update.Delivered? && !Present(update.response.result.versionKey) ==>
              r.value.versionKey == linked.versionKey
  {
    if update.TransportError? || tested != SuccessCode then Failure(UpstreamStatus(Body(update)))
    else if Present(update.response.result.versionKey) then Success(linked.(versionKey := update.response.result.versionKey))
    else Success(linked)
  }

  /** The reserve workflow with the update step testing the code `check` names. */
  function ReserveFlow(check: UpdateCheck, contentId: string, body: ReserveBody, channel: string,
                       reserve: Reply<ReserveResult>, p: Pipeline, update: Reply<UpdateResult>)
    : (r: Outcome<ReserveResult>)
    ensures !r.BadRequest?
    ensures !Accepted(reserve, {SuccessCode}) ==>
              r == UpstreamFailure(UpstreamStatus(Body(reserve)),
                                   if Body(reserve).Some? then Some(Body(reserve).value.result) else None)
    ensures Accepted(reserve, {SuccessCode}) ==>
              var linked := AfterImages(ImageSpecOf(body), contentId, channel, reserve.response.result, p);
              && (r.Partial? <==> linked.None?)
              && (r.Partial? ==> r.result == reserve.response.result)
              && (linked.Some? && !(Present(linked.value.processId) && Present(linked.value.versionKey)) ==>
                    r == Complete(linked.value))
              && (linked.Some? && Present(linked.value.processId) && Present(linked.value.versionKey) ==>
                    (r.UpstreamFailure? <==> update.TransportError? || TestedCode(check, reserve.response.responseCode, update) != SuccessCode))
              && (r.UpstreamFailure? ==> r == UpstreamFailure(UpstreamStatus(Body(update)), None))
              && (r.Complete? ==> linked.Some? && r.result == linked.value.(versionKey := r.result.versionKey))
              && ((r.Complete? && Present(linked.value.processId) && Present(linked.value.versionKey)) ==>
                    && update.Delivered?
                    && (Present(update.response.result.versionKey) ==>
                          r.result.versionKey == update.response.result.versionKey)
                    && (!Present(update.response.result.versionKey) ==> r == Complete(linked.value)))
  {
    if !Accepted(reserve, {SuccessCode}) then
      UpstreamFailure(UpstreamStatus(Body(reserve)), if Body(reserve).Some? then Some(Body(reserve).value.result) else None)
    else
      var reserved := reserve.response.result;
      match AfterImages(ImageSpecOf(body), contentId, channel, reserved, p)
      case None => Partial(reserved)
      case Some(linked) =>
        if Present(linked.processId) && Present(linked.versionKey) then
          match ContentUpdate(TestedCode(check, reserve.response.responseCode, update), update, linked)
          case Failure(status) => UpstreamFailure(status, None)
          case Success(updated) => Complete(updated)
        else Complete(linked)
  }

  /** The reserve workflow as the service runs it. Its update step tests the
      reservation's code, which is SUCCESS by then, so only a transport error
      fails the step; the reserved codes survive every non-error answer. */
  function Reserve(contentId: string, body: ReserveBody, channel: string,
                   reserve: Reply<ReserveResult>, p: Pipeline, update: Reply<UpdateResult>)
    : (r: Outcome<ReserveResult>)
    ensures !r.BadRequest?
    ensures !Accepted(reserve, {SuccessCode}) ==>
              r == UpstreamFailure(UpstreamStatus(Body(reserve)),
                                   if Body(reserve).Some? then Some(Body(reserve).value.result) else None)
    ensures r.UpstreamFailure? && Accepted(reserve, {SuccessCode}) ==>
              update.TransportError? && r.status == UpstreamStatus(Body(update)) && r.body.None?
    ensures Accepted(reserve, {SuccessCode}) && update.Delivered? ==> r.Partial? || r.Complete?
    ensures r.Partial? ==> Accepted(reserve, {SuccessCode}) && r.result == reserve.response.result
    ensures r.Complete? ==>
              && Accepted(reserve, {SuccessCode})
              && r.result == reserve.response.result.(processId := r.result.processId, versionKey := r.result.versionKey)
    ensures r.Complete? && r.result.versionKey != reserve.response.result.versionKey ==>
              update.Delivered? && Present(update.response.result.versionKey)
              && r.result.versionKey == update.response.result.versionKey
    ensures Accepted(reserve, {SuccessCode}) ==>
              var linked := AfterImages(ImageSpecOf(body), contentId, channel, reserve.response.result, p);
              && (r.Partial? <==> linked.None?)
              && ((linked.Some? && Present(linked.value.processId) && Present(linked.value.versionKey)
                   && update.TransportError?)
                  ==> r == UpstreamFailure(UpstreamStatus(Body(update)), None))
              && (r.Complete? ==> r.result.processId == linked.value.processId)
              && ((r.Complete? && Present(linked.value.processId) && Present(linked.value.versionKey)) ==>
                    && update.Delivered?
                    && (Present(update.response.result.versionKey) ==>
                          r.result.versionKey == update.response.result.versionKey)
                    && (!Present(update.response.result.versionKey) ==> r == Complete(linked.value)))
    ensures 100 <= HttpStatus(r) < 600
  {
    ReserveFlow(ReserveResponseCode, contentId, body, channel, reserve, p, update)
  }

  /** The image settings come from `request.dialcodes.qrCodeSpec`: when the
      caller sends a non-empty one and any reserved code fails to render,
      the reservation stands but is answered as partial success, unchanged. */
  lemma ReserveRenderFailureKeepsCodes(contentId: string, q: RenderConfig.Config, publisher: Option<string>,
                                       channel: string, reserve: Reply<ReserveResult>, p: Pipeline,
                                       update: Reply<UpdateResult>, i: nat)
    requires q != map[] && Accepted(reserve, {SuccessCode})
    requires i < |reserve.response.result.reservedDialcodes|
    requires p.services.render(reserve.response.result.reservedDialcodes[i]).Failure?
    ensures Reserve(contentId, ReserveBody(Some(ReserveRequest(Some(ReserveSpec(Some(q), publisher))))),
                    channel, reserve, p, update)
            == Partial(reserve.response.result)
  {
  }

  /** The content update runs only when the reservation, after the image
      step, carries both a process id and a version key; otherwise its reply
      cannot change the answer. */
  lemma ReserveUpdateNeedsProcessAndVersion(contentId: string, body: ReserveBody, channel: string,
                                            reserve: Reply<ReserveResult>, p: Pipeline,
                                            update1: Reply<UpdateResult>, update2: Reply<UpdateResult>)
    requires Accepted(reserve, {SuccessCode})
    requires var linked := AfterImages(ImageSpecOf(body), contentId, channel, reserve.response.result, p);
             linked.Some? && !(Present(linked.value.processId) && Present(linked.value.versionKey))
    ensures Reserve(contentId, body, channel, reserve, p, update1) == Reserve(contentId, body, channel, reserve, p, update2)
    ensures Reserve(contentId, body, channel, reserve, p, update1)
            == Complete(AfterImages(ImageSpecOf(body), contentId, channel, reserve.response.result, p).value)
  {
  }

  /** The defect at the update step: a content service that refuses the
      update (SERVER_ERROR, status 500) is ignored, and the reservation is
      answered with 200 and the old version key, as if the content now
      referenced the batch. */
  lemma ReserveIgnoresRejectedUpdate(contentId: string, body: ReserveBody, channel: string,
                                     reserve: Reply<ReserveResult>, p: Pipeline)
    requires Accepted(reserve, {SuccessCode})
    requires var linked := AfterImages(ImageSpecOf(body), contentId, channel, reserve.response.result, p);
             linked.Some? && Present(linked.value.processId) && Present(linked.value.versionKey)
    ensures var rejected := Delivered(Response(ServerErrorCode, Some(500), UpdateResult(None)));
            && Reserve(contentId, body, channel, reserve, p, rejected)
               == Complete(AfterImages(ImageSpecOf(body), contentId, channel, reserve.response.result, p).value)
            && HttpStatus(Reserve(contentId, body, channel, reserve, p, rejected)) == 200
  {
  }

  /** The reserve workflow with the update step testing the update's own
      code. A refused update is reported with the update's status; an
      accepted one completes the reservation. */
  function ReserveIntended(contentId: string, body: ReserveBody, channel: string,
                           reserve: Reply<ReserveResult>, p: Pipeline, update: Reply<UpdateResult>)
    : (r: Outcome<ReserveResult>)
    ensures !r.BadRequest?
    ensures r.UpstreamFailure? && Accepted(reserve, {SuccessCode}) ==>
              (update.TransportError? || update.response.responseCode != SuccessCode)
              && r.status == UpstreamStatus(Body(update)) && r.body.None?
    ensures Accepted(reserve, {SuccessCode}) ==>
              var linked := AfterImages(ImageSpecOf(body), contentId, channel, reserve.response.result, p);
              linked.Some? && Present(linked.value.processId) && Present(linked.value.versionKey) ==>
                (r.UpstreamFailure? <==> update.TransportError? || update.response.responseCode != SuccessCode)
    ensures Accepted(reserve, {SuccessCode}) ==>
              var linked := AfterImages(ImageSpecOf(body), contentId, channel, reserve.response.result, p);
              && (r.Partial? <==> linked.None?)
              && (r.Complete? ==> r.result.processId == linked.value.processId)
              && ((r.Complete? && Present(linked.value.processId) && Present(linked.value.versionKey)) ==>
                    && update.Delivered?
                    && (Present(update.response.result.versionKey) ==>
                          r.result.versionKey == update.response.result.versionKey)
                    && (!Present(update.response.result.versionKey) ==> r == Complete(linked.value)))
    ensures r.Partial? ==> Accepted(reserve, {SuccessCode}) && r.result == reserve.response.result
    ensures r.Complete? ==>
              && Accepted(reserve, {SuccessCode})
              && r.result == reserve.response.result.(processId := r.result.processId, versionKey := r.result.versionKey)
    ensures 100 <= HttpStatus(r) < 600
  {
    ReserveFlow(UpdateResponseCode, contentId, body, channel, reserve, p, update)
  }
}

=== FILE: wrappers.dfy ===
/** Optional values and success-or-failure results, used wherever the service
    reads a field that may be `undefined` or receives an error-first callback. */
module Wrappers {

  /** A value that may be absent (`undefined` in the service). */
  datatype Option<+T> = None | Some(value: T)

  /** The two shapes of an error-first callback: `cb(null, value)` or `cb(err)`. */
  datatype Result<+T, +E> = Success(value: T) | Failure(error: E)
}
